=== FILE: README.md ===
# TempGenBot session engine — a Dafny model

TempGenBot hands out disposable email addresses and phone numbers through a
Telegram bot backed by a small Flask server. This project models the part of
the system with state and bounds:

- **The server's session engine** (`app.py`). Two in-memory maps are keyed by session id:
  - `message_cache` holds the view a status query returns;
  - `operation_status` holds `waiting` / `complete` / `timeout` / `error` / `cancelled`.

  These maps are changed by:
  - the two background pollers: `poll_inbox` (90 iterations) and `poll_sms_background` (30 iterations);
  - the `cancel` route;
  - the two generate routes.

  The two read routes only look the maps up.
- **The bot's client logic** (`bot.py`):
  - country-code parsing and validation;
  - the two status-polling loops (90 email attempts, 30 SMS attempts), including the check that stops a superseded loop;
  - the per-user `active_sessions` map, which the generate handlers and `/cancel` change.

Network calls and sleeps are replaced by traces of abstract events:

- A poller runs over a sequence of `Tick`s, one per iteration. Each tick holds:
  - the upstream reply: non-200, a 200 with its JSON body, or an exception;
  - two flags saying whether a `cancel` request lands before the iteration's flag test or after it.
- A cancel on the trace is served by the real `CancelOperation`.
- A bot loop runs over a sequence of `Attempt`s. Each attempt holds:
  - the server's reply to one status query;
  - the change another handler made to the user's entry meanwhile: keep, delete, or replace.

Modules: `Wrappers` (optional values, `dict.get`, truthiness), `Decimal`
(numerals for the SMS session id), `Store` (the two maps and their views),
`Routes` (the Flask handlers), `Polling` (the vocabulary both pollers share),
`InboxPoller`, `SmsPoller`, `CountryCode`, `BotSessions`, `BotPolling`,
`BotHandlers`.

Behaviours of the code that a reader of its routes might not expect, each stated by a lemma:

- The cancel route overwrites a finished session (`CancelOverwritesTerminal`). A cancel that lands after the poller tested the flag is overwritten when that iteration ends in `complete` or `error`, or when it is the last iteration (the `timeout` write). After a non-200 or empty reply in an earlier iteration, the next flag test sees it and the loop stops (`MidRequestCancelIsOverwritten`, `FinalSleepCancelIsOverwritten`).
- A new session has a cache entry but no `operation_status` entry until its poller writes `waiting`. A cancel that arrives before that write gets a 404, because the cancel route consults only `operation_status` (`CancelBeforePollerStartIsNotFound`).
- The SMS session id carries only the second of creation. Two requests for the same number and country in one second share an id (`SmsSessionIdSeparatesSeconds`).
- A new email request cancels only a stored email session, and a new number request only a stored SMS session (`EmailStartLeavesSmsSessionRunning`).

## Model

| member | source | states |
|---|---|---|
| Routes.ProvisionEmail | app.py:36-47 | a non-200 mailbox reply yields no address; a 200 yields the reply's `email` field, which may itself be missing |
| Routes.GenerateEmail | app.py:166-177 | the route succeeds exactly when the new address is truthy; it then answers with that address and stores a pending view for it; `operation_status` is not written; on failure it answers 500 and nothing changes |
| Routes.GetMessages | app.py:179-185 | answers with the stored view exactly when the id is a cache key, and with a 404 otherwise; the store is only read |
| Routes.PickNumber | app.py:101-120 | a number is picked exactly when the reply is a 200 whose JSON is a non-empty list, and it is the first element |
| Routes.SmsSessionIdSeparatesSeconds | app.py:193 | for one country and number, two session ids are equal exactly when they were made in the same second |
| Decimal.Show | app.py:193 | the whole-second clock reading is written as a non-empty run of digits with no leading zero |
| Decimal.ParseShow | app.py:193 | reading the written seconds back as a number gives the clock reading, so the id's last field identifies its second |
| Routes.SmsSessionId | app.py:193 | the id starts with `sms_` and ends with an underscore and the decimal seconds of the clock reading |
| Routes.GenerateNumberTakesFirstListed | app.py:109-120 | a 200 list yields a number exactly when it is non-empty and its first entry is not empty, and the number is that first entry; a non-list body or a non-200 gives a 500 and no change |
| Routes.GenerateNumber | app.py:187-209 | the country defaults to "7"; the route succeeds exactly when the picked number is truthy; the answer carries the number, the country and the id built from them and the clock; a pending view is stored under that id; `operation_status` is not written; otherwise it answers 500 and nothing changes |
| Routes.CheckSms | app.py:211-216 | answers with the stored view exactly when the id is a cache key, and with a 404 otherwise; the store is only read |
| Routes.CancelOperation | app.py:218-227 | succeeds exactly when the id has a status; the id is then flagged `cancelled` with the cancelled view and no other session changes; otherwise 404 with the store unchanged |
| Routes.CancelIdempotent | app.py:218-227 | cancelling the same id twice leaves the same store and answer as cancelling it once |
| Routes.CancelOverwritesTerminal | app.py:220-225 | a session already received, timed out or failed is accepted by the cancel route and then reads as cancelled |
| Routes.CancelBeforePollerStartIsNotFound | app.py:166-177 | right after a new email session is created, before its poller writes `waiting`, a cancel for it answers 404 and changes nothing |
| Routes.LookupAfterCancel | app.py:220-225 | after a successful cancel, both read routes answer with the cancelled view |
| Polling.MarkWaiting | app.py:53-54 | the poller's first write sets the status to `waiting`; the cache and all other sessions stay as they were |
| InboxPoller.Body | app.py:78 | the stored body is the first truthy one of text body, HTML body and "No content", so it is never empty |
| InboxPoller.Scan | app.py:68-73 | the inner loop picks the first message whose id is unseen and adds that id to the seen set; when no message is unseen it picks none and the seen set is unchanged |
| InboxPoller.Iterate | app.py:56-91 | no more upstream requests than iterations left, and all of them when the loop times out; the final status matches how the loop ended; a delivered session holds a mail view; taking each terminal step's cache and status writes as one step, the flag and the view end consistent; no other session is touched |
| InboxPoller.PollInbox | app.py:49-98 | at most 90 upstream requests, and exactly 90 on timeout; taking each terminal step's two writes as one step, the session always ends with a terminal status and the view that status writes; that view is never an SMS list or an empty body; no other session is touched |
| InboxPoller.QuietRunFollowsFirstDecisive | app.py:56-98 | with no cancel up to the first decisive reply (an exception, or a non-empty listing), the run makes that many requests plus one and writes the error, or `received` with the listing's first message; with no decisive reply it makes every request and times out; the seen set never skips a listing |
| InboxPoller.CancelBoundsRequests | app.py:56-63 | a cancel that lands before iteration k allows at most k upstream requests; one that lands during iteration k allows at most k+1 |
| InboxPoller.CancelledAtTopStops | app.py:57-60 | a `cancelled` flag at the top of an iteration ends the loop with no request and no write |
| InboxPoller.MidRequestCancelIsOverwritten | app.py:74-83 | a cancel accepted while a request that returns a message is in flight is overwritten; the session ends `complete` |
| InboxPoller.FinalSleepCancelIsOverwritten | app.py:84-91 | a cancel accepted during the last sleep is overwritten by the timeout write |
| InboxPoller.ThreeEmptyPollsThenMessage | app.py:56-83 | three empty listings and then one message from a@b.com with subject Hi and text Hello: four requests, and the mailbox route returns that message |
| SmsPoller.Delivery | app.py:138-140 | a 200 body is taken exactly when it is a non-empty list, and then the whole list is taken |
| SmsPoller.Iterate | app.py:127-156 | no more upstream requests than iterations left, and all of them when the loop times out; the final status matches how the loop ended; taking each terminal step's cache and status writes as one step, the flag and the view end consistent; no other session is touched |
| SmsPoller.PollSms | app.py:122-163 | at most 30 upstream requests, and exactly 30 on timeout; taking each terminal step's two writes as one step, the session always ends with a terminal status and its view; that view is never a mail view or an empty SMS list; no other session is touched |
| SmsPoller.QuietRunFollowsFirstDecisive | app.py:127-163 | with no cancel up to the first decisive reply (an exception, or a non-empty list), the run makes that many requests plus one and writes the error, or `received` with the whole list; non-200, empty and non-list replies only continue; with no decisive reply it times out |
| SmsPoller.CancelBoundsRequests | app.py:127-136 | a cancel that lands before iteration k allows at most k upstream requests; one that lands during iteration k allows at most k+1 |
| SmsPoller.CancelledAtTopStops | app.py:128-131 | a `cancelled` flag at the top of an iteration ends the loop with no request and no write |
| SmsPoller.MidRequestCancelIsOverwritten | app.py:157-163 | a cancel accepted while a request that raises is in flight is overwritten; the session ends `error` |
| SmsPoller.EmptyListingsTimeOut | app.py:127-156 | 30 empty listings with no cancel: exactly 30 requests, and the SMS route then returns the timeout view |
| CountryCode.Strip | bot.py:149 | the result is a slice of the input with only whitespace cut from either side; it is empty exactly when the input is all whitespace, and otherwise starts and ends with a visible character |
| CountryCode.StripIdempotent | bot.py:149 | stripping a stripped text changes nothing |
| CountryCode.FindSeparator | bot.py:150-151 | finds the first occurrence of " - ", or reports that there is none |
| CountryCode.ExtractCodeCutsAtFirstSeparator | bot.py:148-153 | without " - " in the stripped text the code is the stripped text; otherwise it is the stripped part before the first " - " |
| CountryCode.ExtractCode | bot.py:148-153 | the code is no longer than the text and, when not empty, starts and ends with a visible character |
| CountryCode.ParseChoice | bot.py:155-161 | the text is accepted exactly when its code is a non-empty run of digits, and the accepted value is that code |
| CountryCode.LabelYieldsCode | bot.py:137-153 | a keyboard label "code - name", padded with whitespace, yields its code when the name starts with a visible character |
| CountryCode.PlainCodeYieldsCode | bot.py:149-156 | plain digits padded with whitespace are accepted as they are |
| CountryCode.DanglingSeparatorIsInvalid | bot.py:149-161 | "7 - " strips to "7 -", which has no separator and is rejected |
| BotSessions.CancelCommand | bot.py:258-282 | with no entry for the user, nothing is sent and nothing changes; otherwise one cancel request for the id stored for the entry's kind (when truthy) is sent and the user's entry is deleted |
| BotSessions.CancelCommandTwiceIsQuiet | bot.py:261-263 | a second /cancel right after the first sends nothing and changes nothing |
| BotSessions.BeginEmail | bot.py:45-69 | a stored email session is cancelled first, then an address is requested; a truthy address replaces the user's entry and is followed; non-200 or empty replies change nothing; an exception deletes the entry |
| BotSessions.BeginSms | bot.py:163-183 | a stored SMS session is cancelled first, then a number is requested for the code; a 200 replaces the user's entry with the returned session id (possibly missing) and that id is followed; otherwise the map is unchanged |
| BotSessions.EmailStartLeavesSmsSessionRunning | bot.py:49-52 | a new email request sends no cancel for a stored SMS session |
| BotSessions.ReplacedEntrySupersedes | bot.py:114-116 | replacing the user's entry makes a followed email, or a followed SMS session with an id, no longer owned; an SMS session without an id stays owned when replaced by an email entry |
| BotPolling.Encode | app.py:182-183 | the JSON the bot receives carries the view's status and message; it has mail keys exactly for a mail view and messages exactly for an SMS view |
| BotPolling.Follow | bot.py:80-249 | for the email loop (bot.py:80-124) and the SMS loop (bot.py:196-249): no more status queries than attempts left, and all of them when the loop gives up; any end other than superseded or giving up is the end the last query's reply gives, and a crash names that reply's exception; every end except cancelled, superseded and an SMS-side exception removes the user's entry; a superseded end leaves an entry that no longer names the session; other users are untouched |
| BotPolling.Poll | bot.py:80-249 | for the email loop (bot.py:80-124) and the SMS loop (bot.py:196-249): at most 90 queries for an email and 30 for an SMS session, and all of them when the loop gives up; the last query's reply decides every end other than superseded and giving up; the same clearing and framing facts as the step-wise loop |
| BotPolling.UndisturbedFollowStopsAtFirstFinal | bot.py:83-112 | with no other handler touching the entry, the loop stops at the first final reply after that many queries plus one, with that reply's end; the entry is cleared exactly when that end clears it; with no final reply it gives up after every query and clears the entry |
| BotPolling.FinalReplyDecides | bot.py:83-112 | a final reply with the entry untouched ends the loop after one query with the end that reply gives; the entry is cleared exactly when that end clears it |
| BotPolling.SupersededStopsAtOnce | bot.py:239-241 | a non-final reply after which the entry no longer names the session ends the loop at once, with no further change |
| BotPolling.SmsReceivedNeedsMessages | bot.py:202-222 | `received` with an empty or missing message list does not end the SMS loop; with n > 0 messages whose first is an object it ends it, reporting the first message and n-1 more; a first element that is not an object raises, leaving the entry |
| BotPolling.Judge | bot.py:87-237 | for the email chain (bot.py:87-112) and the SMS chain (bot.py:202-237): the loop finishes exactly on `timeout`, `error`, `cancelled`, and on `received` for an email or for a non-empty SMS list; it clears the entry exactly when the end is one that clears, which is every finish except `cancelled` and an unreadable first SMS; an email watch never ends with an SMS and an SMS watch never with an email |
| BotPolling.EmailLoopStopsOnEveryServerOutcome | bot.py:87-112 | every stored view except the pending one stops the email loop; a mail view is reported with its fields and clears the entry; the cancelled view stops the loop without clearing |
| BotPolling.SmsLoopStopsOnEveryServerOutcome | bot.py:202-237 | every view the SMS poller or the cancel route can leave stops the SMS loop; the pending view does not |
| BotHandlers.GenerateEmailCommand | bot.py:45-130 | sends the cancel for a stored email session and the generate request; at most 90 queries; a failed generate changes nothing and polls nothing; an exception from it deletes the entry; other users are untouched |
| BotHandlers.ReceiveCountryCode | bot.py:145-161 | invalid text keeps the conversation waiting, sends nothing and changes nothing; valid text sends the cancel for a stored SMS session and the number request for the code; at most 30 queries; a raising number request makes the handler raise with the map unchanged; otherwise it raises only when the last status reply raised or delivered a first SMS that is not a JSON object |
| BotHandlers.RequestNumber | bot.py:163-256 | the cancel for a stored SMS session and the number request are sent; a non-200 ends the handler with nothing changed; a raising request raises out of the handler with the map unchanged; after a 200 the handler raises exactly when the loop ended on a raising status reply or on a first SMS that is not a JSON object, and that reply is the last one queried |
| BotHandlers.CancelCommandReachesServer | bot.py:267-271 | once the server serves the cancel for a followed email, that session reads as cancelled on the mailbox route, which the bot's loop treats as a stop without clearing |
| BotHandlers.EmailOutcomeReachesBot | bot.py:80-112 | whatever the email poller ended with, the bot's next query stops its loop after one query with the matching end; the entry is cleared unless the session was cancelled |
| BotHandlers.SmsOutcomeReachesBot | bot.py:196-237 | whatever the SMS poller ended with, the bot's next query stops its loop after one query with the matching end; a delivered list whose first element is an object is reported as that record plus the count of the rest and clears the entry; one whose first element is not an object raises out of the handler and leaves the entry |

## Left out

- HTTP traffic is not modelled: the RapidAPI providers, the bot's requests to the server, Flask routing and JSON encoding. Replies are abstract inputs; `Encode` stands in for `jsonify` of a stored view.
- Every terminal step of a poller writes two dictionary entries, first `message_cache` and then `operation_status` (app.py:74-81, 87-91, 94-98, 141-145, 152-156, 159-163). The cancel route writes them in the opposite order: `operation_status`, then `message_cache` (app.py:221-222). The model takes each such pair as one step. A cancel that lands between a poller's two writes would leave `complete` next to the cancelled view, and the bot would then stop without clearing the entry. `Settled` and `Coherent`, and every contract built on them, hold only at this granularity.
- Threads, `time.sleep` and real interleaving are not modelled. A cancel can land at two points in each poller iteration: before the flag test, or after it (during the request or the following sleep). Races inside one dict write, and dict thread-safety, are not modelled.
- Each bot loop attempt has one point where another handler can change the user's entry: after the status reply arrives. A change made during the bot's last sleep, just before its give-up delete, is not modelled.
- The clock reading in the SMS session id (`int(time.time())`) is a parameter.
- CountryCode.ParseChoice: `str.isdigit` is approximated as "non-empty and all ASCII digits". The Unicode digits Python also accepts are not modelled.
- CountryCode.Strip: only ASCII whitespace is stripped. Python's `str.strip` also removes Unicode spaces.
- A poller exception is carried as `str(e)`. It can come from the upstream request, from decoding its JSON, or from reading a listing element (`msg.get("id")`, app.py:69).
- The email listing is modelled as a list of message records. The poller's inner loop (app.py:68-83) gets at most as far as the first element of a 200 body, so any body is played as one of three replies. A body that Python iterates zero times (an empty list, object or string) is an empty listing: the poller sleeps and continues. A list whose first element is an object is played as the listing of that one record: the poller stores it and ends `complete` before reading further. Any other body is a raised exception: a first element that is not an object, or the keys or characters of a non-empty object or string, have no `.get`.
- An exception inside a generate route's provider call (app.py:38, 42, 105) ends in Flask's own 500 with nothing written. The model folds it into the provider's non-200 reply, which also gives a 500 with nothing written.
- The bot's `received` email reply is modelled with its `from`/`subject`/`body` keys either all present or treated as missing, which sends it to the handler's `except`. Python's `null` `message` field is read as absent.
- The bot's cancel requests are fire-and-forget. An exception raised by them, and the server's reply to them, are not modelled.
- Not modelled: the Telegram UI (reply texts, keyboards, `ConversationHandler` wiring, `start`, `help_command`, `cancel_conversation`, `error_handler`, `start_bot`). Also not modelled: `main.py`, and the environment and API-key loading.
- The conversation state after an exception escapes `receive_country_code` is shown only as `Raised`. What the dispatcher does next is not modelled.

=== FILE: bot_handlers.dfy ===
/** The bot's command handlers as whole steps: `generate_email`
    (bot.py:45-130), `receive_country_code` (bot.py:145-256), and their
    meeting point with the server, whose stored views the loops read and
    whose cancel route serves the bot's cancel requests. */
module BotHandlers {
  import opened Wrappers
  import opened Store
  import Routes
  import Polling
  import InboxPoller
  import SmsPoller
  import CountryCode
  import opened BotSessions
  import opened BotPolling

  /** What a handler did: the map it left, the requests it sent other than
      status queries, how its polling ended (if it polled or failed), and
      how many status queries it sent. */
  datatype Handled = Handled(active: Sessions, sent: seq<Request>, end: Option<ClientEnd>, queries: nat)

  /** The conversation state `receive_country_code` returns: still waiting
      for a country, finished, or left by an exception. */
  datatype Conv = WaitingForCountry | End | Raised

  /** `generate_email`: replace the user's email session with a new one and
      follow it for at most 90 queries. A failed generate sends no query. */
  function GenerateEmailCommand(active: Sessions, user: UserId, gen: GenReply, attempts: seq<Attempt>): (r: Handled)
    requires |attempts| >= EmailAttempts
    ensures r.sent == (if user in active then CancelFor(active[user].Email()) else []) + [NewEmailReq]
    ensures r.queries <= EmailAttempts
    ensures gen.GenNon200? || (gen.GenOk? && !Truthy(gen.id)) ==> r == Handled(active, r.sent, None, 0)
    ensures gen.GenRaise? ==> r == Handled(Clear(active, user), r.sent, Some(Crashed(gen.error)), 0)
    ensures r.end.Some? && r.end.value != ServerCancelled && r.end.value != Superseded ==> user !in r.active
    ensures forall u :: u != user ==> Get(r.active, u) == Get(active, u)
  {
    var b := BeginEmail(active, user, gen);
    match b.watch
    case None =>
      Handled(b.active, b.sent, if b.raised.Some? then Some(Crashed(b.raised.value)) else None, 0)
    case Some(w) =>
      var run := Poll(b.active, user, w, attempts);
      Handled(run.active, b.sent, Some(run.end), run.queries)
  }

  /** The ends at which an exception leaves `receive_country_code`, which has
      no `try`: a raising request, or a first SMS that is not a JSON object. */
  predicate Escapes(e: ClientEnd) {
    e.Crashed? || e == UnreadableSms
  }

  /** After a 200 from the number request, the handler's polling ended on
      the last status reply it queried, and that reply gave its end. */
  predicate RaisedByLastReply(gen: GenReply, attempts: seq<Attempt>, h: Handled) {
    && gen.GenOk? && h.end.Some? && 0 < h.queries <= |attempts|
    && Final(WatchSms(gen.id), attempts[h.queries - 1].reply)
    && EndOf(WatchSms(gen.id), attempts[h.queries - 1].reply) == h.end.value
  }

  /** The part of `receive_country_code` after a valid code: replace the
      user's SMS session with a new one for `code` and follow it for at most
      30 queries. The handler raises exactly when the number request raised
      or the loop ended on a reply that raises. */
  function RequestNumber(active: Sessions, user: UserId, code: string, gen: GenReply, attempts: seq<Attempt>)
    : (r: (Handled, Conv))
    requires |attempts| >= SmsAttempts
    ensures r.1 != WaitingForCountry
    ensures r.0.sent == (if user in active then CancelFor(active[user].SmsSession()) else []) + [NewNumberReq(code)]
    ensures r.0.queries <= SmsAttempts
    ensures r.1 == Raised <==> r.0.end.Some? && Escapes(r.0.end.value)
    ensures gen.GenRaise? ==>
      r.1 == Raised && r.0.active == active && r.0.end == Some(Crashed(gen.error)) && r.0.queries == 0
    ensures gen.GenNon200? ==> r == (Handled(active, r.0.sent, None, 0), End)
    ensures r.1 == Raised && !gen.GenRaise? ==> RaisedByLastReply(gen, attempts, r.0)
    ensures r.1 == Raised && r.0.end.value.Crashed? && !gen.GenRaise? ==>
      attempts[r.0.queries - 1].reply == Unreachable(r.0.end.value.error)
    ensures forall u :: u != user ==> Get(r.0.active, u) == Get(active, u)
  {
    var b := BeginSms(active, user, code, gen);
    match b.watch
    case None =>
      if b.raised.Some? then (Handled(b.active, b.sent, Some(Crashed(b.raised.value)), 0), Raised)
      else (Handled(b.active, b.sent, None, 0), End)
    case Some(w) =>
      var run := Poll(b.active, user, w, attempts);
      (Handled(run.active, b.sent, Some(run.end), run.queries), if Escapes(run.end) then Raised else End)
  }

  /** `receive_country_code`: text without a digits-only code keeps the
      conversation waiting and sends nothing; otherwise the code goes to
      `RequestNumber`. */
  function ReceiveCountryCode(active: Sessions, user: UserId, text: string, gen: GenReply, attempts: seq<Attempt>)
    : (r: (Handled, Conv))
    requires |attempts| >= SmsAttempts
    ensures CountryCode.ParseChoice(text).Invalid? <==> r.1 == WaitingForCountry
    ensures r.1 == WaitingForCountry ==> r.0 == Handled(active, [], None, 0)
    ensures CountryCode.ParseChoice(text).Valid? ==>
      r.0.sent == (if user in active then CancelFor(active[user].SmsSession()) else [])
                  + [NewNumberReq(CountryCode.ParseChoice(text).code)]
    ensures r.0.queries <= SmsAttempts
    ensures r.1 == Raised <==> r.0.end.Some? && Escapes(r.0.end.value)
    ensures CountryCode.ParseChoice(text).Valid? && gen.GenRaise? ==>
      r.1 == Raised && r.0.active == active && r.0.end == Some(Crashed(gen.error))
    ensures r.1 == Raised && !gen.GenRaise? ==> RaisedByLastReply(gen, attempts, r.0)
    ensures forall u :: u != user ==> Get(r.0.active, u) == Get(active, u)
  {
    var choice := CountryCode.ParseChoice(text);
    if choice.Invalid? then (Handled(active, [], None, 0), WaitingForCountry)
    else RequestNumber(active, user, choice.code, gen, attempts)
  }

  /** The server serving the bot's requests in order; only cancel requests
      change its store here (the generate routes are modelled with their
      upstream replies in Routes). */
  function ServeCancels(st: Store, sent: seq<Request>): Store
    decreases |sent|
  {
    if |sent| == 0 then st
    else
      var next := if sent[0].CancelReq? then Routes.CancelOperation(st, sent[0].id).0 else st;
      ServeCancels(next, sent[1..])
  }

  /** `/cancel` for a user following a live session: once the server serves
      the bot's request, the session reads `cancelled` on the read route,
      and a poller of that session stops at its next iteration. */
  lemma CancelCommandReachesServer(st: Store, active: Sessions, user: UserId)
    requires user in active
    requires var id := active[user].Email(); Truthy(id) && id.value in st.status
    ensures
      var id := active[user].Email().value;
      var served := ServeCancels(st, CancelCommand(active, user).1);
      && CancelSeen(served, id)
      && Routes.GetMessages(served, id) == Routes.Ok(CancelledView)
      && Judge(WatchEmail(id), Encode(CancelledView)) == Finish(ServerCancelled, false)
  {
  }

  /** End to end for email: whatever the server's poller ended with, the
      bot's next status query stops the bot's loop with the matching end,
      after one query, and clears the user's entry unless the session was
      cancelled. */
  lemma EmailOutcomeReachesBot(
    st: Store, id: SessionId, ticks: seq<Polling.Tick<seq<Mail>>>,
    active: Sessions, user: UserId, attempts: seq<Attempt>)
    requires |ticks| >= InboxPoller.Rounds
    requires |attempts| >= EmailAttempts
    requires StillOwned(WatchEmail(id), active, user)
    requires attempts[0] ==
      Attempt(FromResponse(Routes.GetMessages(InboxPoller.PollInbox(st, id, ticks).store, id)), Keep)
    ensures
      var run := InboxPoller.PollInbox(st, id, ticks);
      var r := Poll(active, user, WatchEmail(id), attempts);
      && r.queries == 1
      && (run.exit == Polling.Delivered <==> r.end.MailArrived?)
      && (run.exit == Polling.Expired <==> r.end == ServerTimedOut)
      && (run.exit == Polling.Crashed <==> r.end.ServerFailed?)
      && (run.exit == Polling.SawCancel <==> r.end == ServerCancelled)
      && (r.active == if run.exit == Polling.SawCancel then active else Clear(active, user))
  {
  }

  /** End to end for SMS: likewise, the SMS poller's outcome stops the bot's
      SMS loop at the next query, the delivered list reported as its first
      record plus the number of further records. */
  lemma SmsOutcomeReachesBot(
    st: Store, id: SessionId, ticks: seq<Polling.Tick<SmsPoller.SmsBody>>,
    active: Sessions, user: UserId, attempts: seq<Attempt>)
    requires |ticks| >= SmsPoller.Rounds
    requires |attempts| >= SmsAttempts
    requires StillOwned(WatchSms(Some(id)), active, user)
    requires attempts[0] ==
      Attempt(FromResponse(Routes.CheckSms(SmsPoller.PollSms(st, id, ticks).store, id)), Keep)
    ensures
      var run := SmsPoller.PollSms(st, id, ticks);
      var r := Poll(active, user, WatchSms(Some(id)), attempts);
      && r.queries == 1
      && (run.exit == Polling.Delivered ==>
            var ms := run.store.cache[id].messages;
            && |ms| > 0
            && (ms[0].Sms? ==> r.end == SmsArrived(ms[0], |ms| - 1) && r.active == Clear(active, user))
            && (ms[0].NotAnObject? ==> r.end == UnreadableSms && r.active == active))
      && (run.exit == Polling.Expired <==> r.end == ServerTimedOut)
      && (run.exit == Polling.Crashed <==> r.end.ServerFailed?)
      && (run.exit == Polling.SawCancel <==> r.end == ServerCancelled)
  {
  }
}

=== FILE: bot_polling.dfy ===
/** The bot's status-polling loops (bot.py:80-124 for email, bot.py:196-249
    for SMS): query the server's read route once per attempt, stop on a
    final status, and stop silently once the user's entry no longer names
    the session. Sleeps are dropped; each attempt carries the server's reply
    and whatever another handler did to this user's entry meanwhile. */
module BotPolling {
  import opened Wrappers
  import opened Store
  import Routes
  import opened BotSessions

  const EmailAttempts := 90
  const SmsAttempts := 30

  /** The `from` / `subject` / `body` keys of a received email reply; the
      server sends all three, possibly with `null` values. */
  datatype MailFields = MailFields(sender: Option<string>, subject: Option<string>, body: Option<string>)

  /** The fields of a 200 status reply the bot reads: `status`, the email
      keys (absent unless all three are present), `messages` and `message`. */
  datatype Envelope = Envelope(
    status: Option<string>,
    mail: Option<MailFields>,
    messages: Option<seq<Sms>>,
    message: Option<string>)

  /** `jsonify` of a stored view, as the bot receives it. */
  function Encode(v: View): (env: Envelope)
    ensures env.status == Some(v.Status())
    ensures env.message == v.Message()
    ensures env.mail.Some? <==> v.MailReceived?
    ensures env.messages.Some? <==> v.SmsReceived?
  {
    match v
    case MailReceived(f, s, b) => Envelope(Some(v.Status()), Some(MailFields(f, s, Some(b))), None, None)
    case SmsReceived(ms) => Envelope(Some(v.Status()), None, Some(ms), None)
    case _ => Envelope(Some(v.Status()), None, None, v.Message())
  }

  /** One status query's result: non-200, a 200 body, or an exception from the request. */
  datatype StatusReply = NotOk | Body(env: Envelope) | Unreachable(error: string)

  /** What the bot receives for a read-route response. */
  function FromResponse(resp: Routes.Response<View>): StatusReply {
    match resp
    case Ok(v) => Body(Encode(v))
    case Err(_, _) => NotOk
  }

  /** How a client loop ended. `Malformed`: a `received` email reply lacking
      one of its keys, whose `KeyError` the handler catches. `UnreadableSms`:
      a `received` SMS reply whose first element is not a JSON object, so
      `msg.get` raises an `AttributeError` that nothing catches. */
  datatype ClientEnd =
    | MailArrived(fields: MailFields)
    | SmsArrived(first: Sms, more: nat)
    | ServerTimedOut
    | ServerFailed(message: string)
    | ServerCancelled
    | Malformed
    | UnreadableSms
    | Superseded
    | GaveUp
    | Crashed(error: string)

  /** The reaction to a 200 body: stop (clearing the user's entry or not), or keep polling. */
  datatype Verdict = Finish(end: ClientEnd, clear: bool) | Continue

  /** The `if/elif` chain on `status`. A `received` SMS reply with no
      messages matches its branch but does nothing, so the loop continues. */
  function Judge(w: Watch, env: Envelope): (v: Verdict)
    ensures v.Finish? <==>
      || env.status == Some("timeout") || env.status == Some("error") || env.status == Some("cancelled")
      || (env.status == Some("received") && (w.WatchEmail? || |env.messages.GetOr([])| > 0))
    ensures v.Finish? ==> (v.clear <==> ClearsEntry(w, v.end))
    ensures v.Finish? ==> (!v.clear <==> env.status == Some("cancelled") || v.end == UnreadableSms)
    ensures v.Finish? ==> v.end != Superseded && v.end != GaveUp && !v.end.Crashed?
    ensures w.WatchEmail? && v.Finish? ==> !v.end.SmsArrived? && v.end != UnreadableSms
    ensures w.WatchSms? && v.Finish? ==> !v.end.MailArrived? && v.end != Malformed
    ensures v.Finish? && v.end.SmsArrived? ==> v.end.first.Sms?
  {
    if env.status == Some("received") then
      match w
      case WatchEmail(_) =>
        if env.mail.Some? then Finish(MailArrived(env.mail.value), true) else Finish(Malformed, true)
      case WatchSms(_) =>
        var ms := env.messages.GetOr([]);
        if |ms| == 0 then Continue
        else if ms[0].NotAnObject? then Finish(UnreadableSms, false)
        else Finish(SmsArrived(ms[0], |ms| - 1), true)
    else if env.status == Some("timeout") then Finish(ServerTimedOut, true)
    else if env.status == Some("error") then Finish(ServerFailed(env.message.GetOr("Unknown error")), true)
    else if env.status == Some("cancelled") then Finish(ServerCancelled, false)
    else Continue
  }

  /** One attempt: the server's reply to the status query, and the edit
      another handler made to this user's entry by the time the bot looks. */
  datatype Attempt = Attempt(reply: StatusReply, edit: Edit)

  /** The map the loop leaves, how it ended, and how many status queries it sent. */
  datatype ClientRun = ClientRun(active: Sessions, end: ClientEnd, queries: nat)

  /** The ends after which the user's entry is gone. The SMS handler has no
      `try`, so an exception there leaves the entry in place. */
  predicate ClearsEntry(w: Watch, e: ClientEnd) {
    match e
    case MailArrived(_) => true
    case SmsArrived(_, _) => true
    case ServerTimedOut => true
    case ServerFailed(_) => true
    case Malformed => true
    case UnreadableSms => false
    case GaveUp => true
    case Crashed(_) => w.WatchEmail?
    case ServerCancelled => false
    case Superseded => false
  }

  /** One more status query sent on the way to the run `r`. */
  function CountQuery(r: ClientRun): ClientRun {
    r.(queries := r.queries + 1)
  }

  /** A reply that ends the loop on its own: an exception, or a body the chain stops on. */
  predicate Final(w: Watch, reply: StatusReply) {
    reply.Unreachable? || (reply.Body? && Judge(w, reply.env).Finish?)
  }

  /** The end a final reply gives: an exception ends the loop as a crash,
      a body as the status chain says. */
  function EndOf(w: Watch, reply: StatusReply): ClientEnd
    requires Final(w, reply)
  {
    match reply
    case Unreachable(e) => Crashed(e)
    case Body(env) => Judge(w, env).end
  }

  /** The attempts still to make: `left` of them, played by `attempts`. */
  function Follow(active: Sessions, user: UserId, w: Watch, attempts: seq<Attempt>, left: nat): (r: ClientRun)
    requires left <= |attempts|
    ensures r.queries <= left
    ensures r.end != Superseded && r.end != GaveUp ==>
      0 < r.queries && Final(w, attempts[r.queries - 1].reply) && EndOf(w, attempts[r.queries - 1].reply) == r.end
    ensures r.end.Crashed? ==> 0 < r.queries && attempts[r.queries - 1].reply == Unreachable(r.end.error)
    ensures r.end == GaveUp ==> r.queries == left
    ensures ClearsEntry(w, r.end) ==> user !in r.active
    ensures r.end == Superseded ==> !StillOwned(w, r.active, user)
    ensures forall u :: u != user ==> Get(r.active, u) == Get(active, u)
    decreases left
  {
    if left == 0 then ClientRun(Clear(active, user), GaveUp, 0)
    else
      var t := attempts[0];
      var a := ApplyEdit(active, user, t.edit);
      if Final(w, t.reply) then
        match t.reply
        case Unreachable(e) => ClientRun(if w.WatchEmail? then Clear(a, user) else a, Crashed(e), 1)
        case Body(env) =>
          var v := Judge(w, env);
          ClientRun(if v.clear then Clear(a, user) else a, v.end, 1)
      else if !StillOwned(w, a, user) then ClientRun(a, Superseded, 1)
      else CountQuery(Follow(a, user, w, attempts[1..], left - 1))
  }

  /** The attempt budget of each loop. */
  function Attempts(w: Watch): nat {
    match w
    case WatchEmail(_) => EmailAttempts
    case WatchSms(_) => SmsAttempts
  }

  /** The full loop for a watched session: at most 90 queries for an email,
      30 for an SMS session, all of them when it gives up. */
  function Poll(active: Sessions, user: UserId, w: Watch, attempts: seq<Attempt>): (r: ClientRun)
    requires |attempts| >= Attempts(w)
    ensures r.queries <= Attempts(w)
    ensures w.WatchEmail? ==> r.queries <= 90
    ensures w.WatchSms? ==> r.queries <= 30
    ensures r.end == GaveUp ==> r.queries == Attempts(w)
    ensures r.end != Superseded && r.end != GaveUp ==>
      0 < r.queries && Final(w, attempts[r.queries - 1].reply) && EndOf(w, attempts[r.queries - 1].reply) == r.end
    ensures r.end.Crashed? ==> 0 < r.queries && attempts[r.queries - 1].reply == Unreachable(r.end.error)
    ensures ClearsEntry(w, r.end) ==> user !in r.active
    ensures forall u :: u != user ==> Get(r.active, u) == Get(active, u)
  {
    Follow(active, user, w, attempts, Attempts(w))
  }

  // ---------------------------------------------------------------- properties

  /** The position of the first final reply among the first `left`, or `left`. */
  function FirstFinal(w: Watch, attempts: seq<Attempt>, left: nat): (i: nat)
    requires left <= |attempts|
    ensures i <= left
    ensures forall k :: 0 <= k < i ==> !Final(w, attempts[k].reply)
    ensures i < left ==> Final(w, attempts[i].reply)
    decreases left
  {
    if left == 0 then 0
    else if Final(w, attempts[0].reply) then 0
    else 1 + FirstFinal(w, attempts[1..], left - 1)
  }

  /** With no other handler touching the entry, the loop is decided by the
      first final reply: that many queries plus one and the end it gives,
      with the entry cleared exactly when that end clears it; with no final
      reply it sends every query, gives up and clears the entry. */
  lemma {:induction false} UndisturbedFollowStopsAtFirstFinal(active: Sessions, user: UserId, w: Watch, attempts: seq<Attempt>, left: nat)
    requires left <= |attempts|
    requires StillOwned(w, active, user)
    requires forall k :: 0 <= k < left && k <= FirstFinal(w, attempts, left) ==> attempts[k].edit == Keep
    ensures
      var i := FirstFinal(w, attempts, left);
      var r := Follow(active, user, w, attempts, left);
      (i == left ==> r == ClientRun(Clear(active, user), GaveUp, left))
      && (i < left ==>
        && r.queries == i + 1
        && r.end != Superseded && r.end != GaveUp
        && r.active == (if ClearsEntry(w, r.end) then Clear(active, user) else active)
        && r.end == EndOf(w, attempts[i].reply))
    decreases left
  {
    if left == 0 {
    } else if Final(w, attempts[0].reply) {
      FinalReplyDecides(active, user, w, attempts, left);
    } else {
      UndisturbedStep(active, user, w, attempts, left);
      assert FirstFinal(w, attempts, left) == 1 + FirstFinal(w, attempts[1..], left - 1);
      forall k | 0 <= k < left - 1 && k <= FirstFinal(w, attempts[1..], left - 1)
        ensures attempts[1..][k].edit == Keep
      {
        assert attempts[1..][k] == attempts[k + 1];
      }
      UndisturbedFollowStopsAtFirstFinal(active, user, w, attempts[1..], left - 1);
    }
  }

  /** A final first reply with the entry left alone ends the loop after one
      query, with the end that reply gives, clearing exactly when that end does. */
  lemma FinalReplyDecides(active: Sessions, user: UserId, w: Watch, attempts: seq<Attempt>, left: nat)
    requires 0 < left <= |attempts|
    requires Final(w, attempts[0].reply) && attempts[0].edit == Keep
    ensures
      var r := Follow(active, user, w, attempts, left);
      && r.queries == 1
      && r.end == EndOf(w, attempts[0].reply)
      && r.end != Superseded && r.end != GaveUp
      && r.active == (if ClearsEntry(w, r.end) then Clear(active, user) else active)
  {
    assert ApplyEdit(active, user, Keep) == active;
  }

  /** A non-final reply with the entry left alone and still owned costs one
      query and hands the rest of the attempts to the next iteration. */
  lemma UndisturbedStep(active: Sessions, user: UserId, w: Watch, attempts: seq<Attempt>, left: nat)
    requires 0 < left <= |attempts|
    requires StillOwned(w, active, user)
    requires !Final(w, attempts[0].reply) && attempts[0].edit == Keep
    ensures Follow(active, user, w, attempts, left) == CountQuery(Follow(active, user, w, attempts[1..], left - 1))
  {
    assert ApplyEdit(active, user, Keep) == active;
  }

  /** An attempt whose reply is not final and after which the user's entry
      no longer names the session ends the loop at once, without a reply to
      the user and without touching the map further. */
  lemma SupersededStopsAtOnce(active: Sessions, user: UserId, w: Watch, attempts: seq<Attempt>, left: nat)
    requires 0 < left <= |attempts|
    requires !Final(w, attempts[0].reply)
    requires !StillOwned(w, ApplyEdit(active, user, attempts[0].edit), user)
    ensures Follow(active, user, w, attempts, left) == ClientRun(ApplyEdit(active, user, attempts[0].edit), Superseded, 1)
  {
  }

  /** The SMS loop: a `received` reply with an empty or missing message list
      does not end it, while one with n > 0 messages ends it reporting the
      first and n - 1 more, or, when the first is not a JSON object, raising
      out of the handler with the entry left in place. */
  lemma SmsReceivedNeedsMessages(s: Option<string>, env: Envelope)
    requires env.status == Some("received")
    ensures |env.messages.GetOr([])| == 0 ==> Judge(WatchSms(s), env) == Continue
    ensures
      var ms := env.messages.GetOr([]);
      |ms| > 0 && ms[0].Sms? ==> Judge(WatchSms(s), env) == Finish(SmsArrived(ms[0], |ms| - 1), true)
    ensures
      var ms := env.messages.GetOr([]);
      |ms| > 0 && ms[0].NotAnObject? ==> Judge(WatchSms(s), env) == Finish(UnreadableSms, false)
  {
  }

  /** Every view the server stores other than the pending one stops the
      email loop, and the pending view keeps it polling. */
  lemma EmailLoopStopsOnEveryServerOutcome(e: string, v: View)
    ensures Judge(WatchEmail(e), Encode(v)).Finish? <==> !v.Pending?
    ensures v.MailReceived? ==> Judge(WatchEmail(e), Encode(v)) == Finish(MailArrived(MailFields(v.sender, v.subject, Some(v.body))), true)
    ensures v == CancelledView ==> Judge(WatchEmail(e), Encode(v)) == Finish(ServerCancelled, false)
  {
  }

  /** Every view the SMS poller or the cancel route can leave stops the SMS
      loop: the poller stores only non-empty message lists, never an email. */
  lemma SmsLoopStopsOnEveryServerOutcome(s: Option<string>, v: View)
    requires !v.MailReceived?
    requires v.SmsReceived? ==> |v.messages| > 0
    ensures Judge(WatchSms(s), Encode(v)).Finish? <==> !v.Pending?
  {
  }
}

=== FILE: bot_sessions.dfy ===
/** The bot's per-user record of the session it is following (bot.py:23),
    and the handler steps that change it before any status polling starts:
    `cancel_command` (bot.py:258-282) and the opening of `generate_email`
    (bot.py:45-69) and of `receive_country_code` (bot.py:163-183). Requests
    to the server are recorded rather than sent. */
module BotSessions {
  import opened Wrappers
  import opened Store

  type UserId = int

  /** `active_sessions[user_id]`: `{'email': e, 'type': 'email'}` or
      `{'sms_session': sid, 'type': 'sms'}`; the server may have sent no
      session id, so `sid` may be `None`. */
  datatype Entry = EmailEntry(email: string) | SmsEntry(smsSession: Option<string>) {

    /** `entry.get('email')` */
    function Email(): Option<string> {
      if EmailEntry? then Some(email) else None
    }

    /** `entry.get('sms_session')` */
    function SmsSession(): Option<string> {
      if SmsEntry? then smsSession else None
    }
  }

  type Sessions = map<UserId, Entry>

  /** A request the bot sends to the server and whose reply it ignores or
      handles elsewhere. */
  datatype Request = CancelReq(id: SessionId) | NewEmailReq | NewNumberReq(country: string)

  /** The session the bot is following for one user: the email address, or
      the SMS session id as the server returned it. */
  datatype Watch = WatchEmail(email: string) | WatchSms(session: Option<string>)

  /** The user's entry still names the watched session (the test at bot.py:115 and bot.py:240, negated). */
  predicate StillOwned(w: Watch, active: Sessions, user: UserId) {
    && user in active
    && match w
       case WatchEmail(e) => active[user].Email() == Some(e)
       case WatchSms(s) => active[user].SmsSession() == s
  }

  /** `if user_id in active_sessions: del active_sessions[user_id]` */
  function Clear(active: Sessions, user: UserId): (r: Sessions)
    ensures user !in r
    ensures forall u :: u != user ==> Get(r, u) == Get(active, u)
  {
    active - {user}
  }

  /** A change another handler makes to this user's entry while a polling
      loop is waiting: none, a `/cancel` deleting it, or a newer request
      replacing it. */
  datatype Edit = Keep | Drop | Replace(entry: Entry)

  function ApplyEdit(active: Sessions, user: UserId, e: Edit): (r: Sessions)
    ensures forall u :: u != user ==> Get(r, u) == Get(active, u)
    ensures e.Keep? ==> r == active
  {
    match e
    case Keep => active
    case Drop => Clear(active, user)
    case Replace(entry) => active[user := entry]
  }

  /** The cancel request for a stored id, when that id is truthy. */
  function CancelFor(id: Option<string>): (r: seq<Request>)
    ensures Truthy(id) ==> r == [CancelReq(id.value)]
    ensures !Truthy(id) ==> r == []
  {
    if Truthy(id) then [CancelReq(id.value)] else []
  }

  /** `cancel_command`: with no entry, nothing is sent and nothing changes;
      otherwise one cancel request for the id the entry's kind stores (when
      truthy) and the entry is deleted. Other users are untouched. */
  function CancelCommand(active: Sessions, user: UserId): (r: (Sessions, seq<Request>))
    ensures user !in active ==> r == (active, [])
    ensures user in active ==> r.0 == active - {user}
    ensures user in active && active[user].EmailEntry? ==>
      r.1 == (if active[user].email != "" then [CancelReq(active[user].email)] else [])
    ensures user in active && active[user].SmsEntry? ==>
      r.1 == (if Truthy(active[user].smsSession) then [CancelReq(active[user].smsSession.value)] else [])
  {
    if user !in active then (active, [])
    else
      var entry := active[user];
      var sent := match entry
        case EmailEntry(_) => CancelFor(entry.Email())
        case SmsEntry(_) => CancelFor(entry.SmsSession());
      (Clear(active, user), sent)
  }

  /** A second `/cancel` right after a first one finds no entry: it sends
      nothing and changes nothing. */
  lemma CancelCommandTwiceIsQuiet(active: Sessions, user: UserId)
    ensures
      var once := CancelCommand(active, user).0;
      CancelCommand(once, user) == (once, [])
  {
  }

  /** The server's reply to "generate", as the bot reads it: non-200, a 200
      whose JSON field (`temp_email` / `session_id`) may be missing, or an
      exception raised by the request. */
  datatype GenReply = GenNon200 | GenOk(id: Option<string>) | GenRaise(error: string)

  /** The bot's state once a generate handler has reached its polling loop
      (or stopped before it): the map, the requests sent, the session to
      follow, and an exception that ended the handler. */
  datatype Begin = Begin(active: Sessions, sent: seq<Request>, watch: Option<Watch>, raised: Option<string>)

  /** The opening of `generate_email`: cancel the user's stored email session
      (an SMS session is left running), ask for a new address, and on a
      truthy address make it the user's entry. A non-200 or empty reply
      leaves the map alone; an exception is caught and deletes the entry. */
  function BeginEmail(active: Sessions, user: UserId, gen: GenReply): (r: Begin)
    ensures r.sent == (if user in active then CancelFor(active[user].Email()) else []) + [NewEmailReq]
    ensures r.watch.Some? <==> gen.GenOk? && Truthy(gen.id)
    ensures r.watch.Some? ==>
      && r.watch.value == WatchEmail(gen.id.value)
      && r.active == active[user := EmailEntry(gen.id.value)]
      && StillOwned(r.watch.value, r.active, user)
    ensures gen.GenRaise? ==> r.active == Clear(active, user) && r.raised == Some(gen.error)
    ensures !gen.GenRaise? ==> r.raised == None
    ensures r.watch.None? && !gen.GenRaise? ==> r.active == active
  {
    var sent := (if user in active then CancelFor(active[user].Email()) else []) + [NewEmailReq];
    match gen
    case GenNon200 => Begin(active, sent, None, None)
    case GenRaise(e) => Begin(Clear(active, user), sent, None, Some(e))
    case GenOk(id) =>
      if Truthy(id) then Begin(active[user := EmailEntry(id.value)], sent, Some(WatchEmail(id.value)), None)
      else Begin(active, sent, None, None)
  }

  /** The part of `receive_country_code` after validation: cancel the user's
      stored SMS session (an email session is left running), ask for a
      number for `code`, and on a 200 make the returned session id, even a
      missing one, the user's entry. Nothing catches an exception here: it
      leaves the handler with the map as it was. */
  function BeginSms(active: Sessions, user: UserId, code: string, gen: GenReply): (r: Begin)
    ensures r.sent == (if user in active then CancelFor(active[user].SmsSession()) else []) + [NewNumberReq(code)]
    ensures r.watch.Some? <==> gen.GenOk?
    ensures r.watch.Some? ==>
      && r.watch.value == WatchSms(gen.id)
      && r.active == active[user := SmsEntry(gen.id)]
      && StillOwned(r.watch.value, r.active, user)
    ensures gen.GenRaise? ==> r.raised == Some(gen.error)
    ensures !gen.GenRaise? ==> r.raised == None
    ensures r.watch.None? ==> r.active == active
  {
    var sent := (if user in active then CancelFor(active[user].SmsSession()) else []) + [NewNumberReq(code)];
    match gen
    case GenNon200 => Begin(active, sent, None, None)
    case GenRaise(e) => Begin(active, sent, None, Some(e))
    case GenOk(id) => Begin(active[user := SmsEntry(id)], sent, Some(WatchSms(id)), None)
  }

  /** Starting an email while an SMS session is stored sends no cancel for
      that session; the replaced entry only stops the bot from following it. */
  lemma EmailStartLeavesSmsSessionRunning(active: Sessions, user: UserId, gen: GenReply)
    requires user in active && active[user].SmsEntry?
    ensures BeginEmail(active, user, gen).sent == [NewEmailReq]
  {
  }

  /** Replacing the user's entry stops the bot from following the session it
      held: a watched email is dropped by any other entry, a watched SMS
      session with a truthy id by any other entry too. The exception is an
      SMS session the server returned no id for: a new email entry also has
      no `sms_session`, so that watch still reads as owned. */
  lemma ReplacedEntrySupersedes(active: Sessions, user: UserId, prior: Watch, entry: Entry)
    ensures prior.WatchEmail? && entry != EmailEntry(prior.email) ==> !StillOwned(prior, active[user := entry], user)
    ensures prior.WatchSms? && Truthy(prior.session) && entry != SmsEntry(prior.session)
      ==> !StillOwned(prior, active[user := entry], user)
    ensures prior == WatchSms(None) && entry.EmailEntry? ==> StillOwned(prior, active[user := entry], user)
  {
  }
}

=== FILE: country_code.dfy ===
/** The country-code step of the phone conversation (bot.py:145-161): the
    user's text is stripped; a keyboard label such as "7 - Russia" is cut at
    its first " - "; what remains must be all digits. */
module CountryCode {
  import opened Wrappers
  import Decimal

  const Separator := " - "

  /** The characters Python's `str.strip()` removes, restricted to ASCII:
      tab, line feed, vertical tab, form feed, carriage return, the four
      information separators and space. */
  predicate IsSpace(c: char) {
    ('\t' <= c <= '\r') || ('\U{1C}' <= c <= '\U{1F}') || c == ' '
  }

  predicate AllSpace(s: string) {
    forall k :: 0 <= k < |s| ==> IsSpace(s[k])
  }

  /** The number of leading whitespace characters of `s[i..]`, counted from `i`. */
  function LeadEnd(s: string, i: nat): (n: nat)
    requires i <= |s|
    ensures i <= n <= |s|
    ensures forall k :: i <= k < n ==> IsSpace(s[k])
    ensures n < |s| ==> !IsSpace(s[n])
    decreases |s| - i
  {
    if i == |s| || !IsSpace(s[i]) then i else LeadEnd(s, i + 1)
  }

  /** The end of `s[..j]` once its trailing whitespace is cut off. */
  function TrailStart(s: string, j: nat): (n: nat)
    requires j <= |s|
    ensures n <= j
    ensures forall k :: n <= k < j ==> IsSpace(s[k])
    ensures n > 0 ==> !IsSpace(s[n - 1])
    decreases j
  {
    if j == 0 || !IsSpace(s[j - 1]) then j else TrailStart(s, j - 1)
  }

  /** `s.strip()`: the slice of `s` between its leading and its trailing
      whitespace; empty exactly when `s` is all whitespace, and otherwise
      starting and ending with a non-whitespace character. */
  function Strip(s: string): (r: string)
    ensures |r| <= |s|
    ensures r == "" <==> AllSpace(s)
    ensures r != "" ==> !IsSpace(r[0]) && !IsSpace(r[|r| - 1])
    ensures exists i :: 0 <= i <= |s| - |r| && s[i..i + |r|] == r && AllSpace(s[..i]) && AllSpace(s[i + |r|..])
  {
    var lo := LeadEnd(s, 0);
    var hi := TrailStart(s, |s|);
    if lo >= hi then
      assert hi == 0;
      assert s[0..0] == "" && AllSpace(s[..0]) && AllSpace(s[0..]);
      ""
    else
      var r := s[lo..hi];
      assert !IsSpace(s[lo]) && !IsSpace(s[hi - 1]);
      assert AllSpace(s[..lo]) && AllSpace(s[hi..]);
      assert s[lo..lo + |r|] == r;
      r
  }

  /** `sep in s` at position `i`. */
  predicate SeparatorAt(s: string, i: nat) {
    i + |Separator| <= |s| && s[i..i + |Separator|] == Separator
  }

  /** The position of the first " - " in `s` at or after `i`, if any. */
  function FindSeparator(s: string, i: nat): (r: Option<nat>)
    requires i <= |s|
    ensures r.Some? ==> i <= r.value && SeparatorAt(s, r.value)
    ensures r.Some? ==> forall k :: i <= k < r.value ==> !SeparatorAt(s, k)
    ensures r.None? ==> forall k :: i <= k <= |s| ==> !SeparatorAt(s, k)
    decreases |s| - i
  {
    if i + |Separator| > |s| then None
    else if SeparatorAt(s, i) then Some(i)
    else FindSeparator(s, i + 1)
  }

  /** The country code in the user's text: with " - " present in the
      stripped text, the stripped part before its first occurrence;
      otherwise the whole stripped text. */
  function ExtractCode(text: string): (code: string)
    ensures |code| <= |text|
    ensures code == "" || (!IsSpace(code[0]) && !IsSpace(code[|code| - 1]))
  {
    var t := Strip(text);
    match FindSeparator(t, 0)
    case Some(i) => Strip(t[..i])
    case None => t
  }

  /** The two cases of `ExtractCode`, stated against the first occurrence of
      the separator rather than the search that finds it. */
  lemma ExtractCodeCutsAtFirstSeparator(text: string, i: nat)
    ensures (forall k :: 0 <= k <= |Strip(text)| ==> !SeparatorAt(Strip(text), k)) ==> ExtractCode(text) == Strip(text)
    ensures
      && i <= |Strip(text)|
      && SeparatorAt(Strip(text), i)
      && (forall k :: 0 <= k < i ==> !SeparatorAt(Strip(text), k))
      ==> ExtractCode(text) == Strip(Strip(text)[..i])
  {
    var t := Strip(text);
    var f := FindSeparator(t, 0);
    if f.Some? && i <= |t| && SeparatorAt(t, i) && (forall k :: 0 <= k < i ==> !SeparatorAt(t, k)) {
      assert f.value == i;
    }
  }

  /** `str.isdigit()`, restricted to ASCII: non-empty and all digits. */
  predicate IsCode(code: string) {
    |code| > 0 && Decimal.AllDigits(code)
  }

  /** The outcome of `receive_country_code`'s validation. */
  datatype Choice = Invalid | Valid(code: string)

  function ParseChoice(text: string): (r: Choice)
    ensures r.Valid? <==> IsCode(ExtractCode(text))
    ensures r.Valid? ==> r.code == ExtractCode(text)
  {
    var code := ExtractCode(text);
    if IsCode(code) then Valid(code) else Invalid
  }

  lemma DigitsHaveNoSpace(d: string)
    requires Decimal.AllDigits(d)
    ensures forall k :: 0 <= k < |d| ==> !IsSpace(d[k])
  {
  }

  /** A keyboard-style label "<code> - <name>", padded with whitespace on
      either side, yields exactly its code, provided the name begins with a
      visible character. */
  lemma {:induction false} LabelYieldsCode(pad: string, code: string, name: string, tail: string)
    requires AllSpace(pad) && AllSpace(tail)
    requires IsCode(code)
    requires |name| > 0 && !IsSpace(name[0])
    ensures ParseChoice(pad + code + Separator + name + tail) == Valid(code)
  {
    var body := code + Separator + name + tail;
    var text := pad + code + Separator + name + tail;
    assert text == pad + body;
    DigitsHaveNoSpace(code);
    StripSkipsPadding(pad, body);
    var t := Strip(body);
    var c := |code|;
    LabelStrip(code, name, tail);
    ExtractCodeCutsAtFirstSeparator(text, c);
    StripKeepsTrimmed(code);
  }

  /** Stripping a label keeps its code and separator in front. */
  lemma LabelStrip(code: string, name: string, tail: string)
    requires IsCode(code)
    requires |name| > 0 && !IsSpace(name[0])
    ensures
      var t := Strip(code + Separator + name + tail);
      && |code| <= |t|
      && SeparatorAt(t, |code|)
      && t[..|code|] == code
      && (forall k :: 0 <= k < |code| ==> !SeparatorAt(t, k))
  {
    var body := code + Separator + name + tail;
    DigitsHaveNoSpace(code);
    var c := |code|;
    var hi := TrailStart(body, |body|);
    assert body[c + |Separator|] == name[0];
    assert hi > c + |Separator|;
    assert LeadEnd(body, 0) == 0;
    var t := Strip(body);
    assert t == body[..hi];
    assert t[..c] == code;
    assert t[c..c + |Separator|] == Separator by {
      assert body[c..c + |Separator|] == Separator;
    }
    forall k | 0 <= k < c
      ensures !SeparatorAt(t, k)
    {
      assert t[k] == code[k];
    }
  }

  /** Leading whitespace in front of a visible character does not change the strip. */
  lemma StripSkipsPadding(pad: string, body: string)
    requires AllSpace(pad)
    requires |body| > 0 && !IsSpace(body[0])
    ensures LeadEnd(pad + body, 0) == |pad|
    ensures LeadEnd(body, 0) == 0
    ensures Strip(pad + body) == Strip(body)
  {
    var s := pad + body;
    assert s[|pad|] == body[0];
    var hi := TrailStart(s, |s|);
    assert hi > |pad|;
    var hb := TrailStart(body, |body|);
    assert hi == |pad| + hb by {
      TrailStartShift(pad, body, |body|);
    }
    assert s[|pad|..hi] == body[..hb];
  }

  /** Cutting trailing whitespace looks only at the text after the padding. */
  lemma {:induction false} TrailStartShift(pad: string, body: string, j: nat)
    requires 1 <= j <= |body|
    requires !IsSpace(body[0])
    ensures TrailStart(pad + body, |pad| + j) == |pad| + TrailStart(body, j)
    decreases j
  {
    var s := pad + body;
    assert s[|pad| + j - 1] == body[j - 1];
    if j > 1 {
      TrailStartShift(pad, body, j - 1);
    }
  }

  /** A string that neither starts nor ends with whitespace is its own strip. */
  lemma StripKeepsTrimmed(s: string)
    requires s == "" || (!IsSpace(s[0]) && !IsSpace(s[|s| - 1]))
    ensures Strip(s) == s
  {
    if s != "" {
      assert LeadEnd(s, 0) == 0;
      assert TrailStart(s, |s|) == |s|;
    }
  }

  /** Stripping twice strips no more than stripping once. */
  lemma StripIdempotent(s: string)
    ensures Strip(Strip(s)) == Strip(s)
  {
  }

  /** Plain digits, padded with whitespace, are accepted as they are. */
  lemma PlainCodeYieldsCode(pad: string, code: string, tail: string)
    requires AllSpace(pad) && AllSpace(tail)
    requires IsCode(code)
    ensures ParseChoice(pad + code + tail) == Valid(code)
  {
    var s := pad + code + tail;
    var p, c := |pad|, |code|;
    DigitsHaveNoSpace(code);
    var lo := LeadEnd(s, 0);
    assert s[p] == code[0];
    assert lo == p;
    var hi := TrailStart(s, |s|);
    assert s[p + c - 1] == code[c - 1];
    assert hi == p + c;
    assert Strip(s) == code;
    forall k | 0 <= k <= c
      ensures !SeparatorAt(code, k)
    {
      if k + |Separator| <= c {
        assert code[k..k + |Separator|][0] == code[k];
      }
    }
    ExtractCodeCutsAtFirstSeparator(s, 0);
  }

  /** Text whose code part is not all digits, such as "7 -" left by a label
      with nothing after the separator, keeps the conversation waiting. */
  lemma DanglingSeparatorIsInvalid()
    ensures ParseChoice("7 - ") == Invalid
  {
    var s := "7 - ";
    assert LeadEnd(s, 0) == 0;
    assert TrailStart(s, |s|) == 3;
    assert Strip(s) == "7 -";
    assert FindSeparator("7 -", 0) == None;
    assert !Decimal.IsDigit(' ');
  }
}

=== FILE: decimal.dfy ===
/** Decimal rendering of natural numbers, as Python's `str(int)` / f-string
    interpolation writes them, with its inverse. */
module Decimal {

  predicate IsDigit(c: char) {
    '0' <= c <= '9'
  }

  /** Every character of `s` is an ASCII decimal digit (the empty string included). */
  predicate AllDigits(s: string) {
    forall k :: 0 <= k < |s| ==> IsDigit(s[k])
  }

  function DigitChar(d: nat): (c: char)
    requires d < 10
    ensures IsDigit(c)
  {
    (('0' as int) + d) as char
  }

  function DigitValue(c: char): (d: nat)
    requires IsDigit(c)
    ensures d < 10
  {
    (c as int) - ('0' as int)
  }

  /** The decimal numeral of `n`, most significant digit first, without leading zeros. */
  function Show(n: nat): (s: string)
    ensures |s| > 0
    ensures AllDigits(s)
    ensures |s| > 1 ==> s[0] != '0'
    decreases n
  {
    if n < 10 then [DigitChar(n)]
    else
      var front := Show(n / 10);
      assert front[0] == (front + [DigitChar(n % 10)])[0];
      front + [DigitChar(n % 10)]
  }

  /** The value of a numeral (the empty numeral reads as 0). */
  function Parse(s: string): nat
    requires AllDigits(s)
  {
    if |s| == 0 then 0
    else Parse(s[..|s| - 1]) * 10 + DigitValue(s[|s| - 1])
  }

  /** Reading back a rendered number gives the number. */
  lemma {:induction false} ParseShow(n: nat)
    ensures Parse(Show(n)) == n
    decreases n
  {
    if n >= 10 {
      var s := Show(n);
      assert s[..|s| - 1] == Show(n / 10);
      ParseShow(n / 10);
    }
  }

  /** Distinct numbers render as distinct numerals. */
  lemma ShowInjective(a: nat, b: nat)
    ensures Show(a) == Show(b) ==> a == b
  {
    ParseShow(a);
    ParseShow(b);
  }
}

=== FILE: inbox_poller.dfy ===
/** `poll_inbox` (app.py:49-98): the email session's background poller.
    It marks the session `waiting`, then for at most 90 iterations tests the
    cancellation flag, lists the mailbox once and stops at the first message
    whose id it has not seen, at an exception, or after the last iteration. */
module InboxPoller {
  import opened Wrappers
  import opened Store
  import opened Polling
  import Routes

  const Rounds := 90
  const TimeoutMessage := "No messages received after 15 minutes"
  const NoContent := "No content"

  /** `body_text or body_html or "No content"`: the first truthy body, so
      never empty even when the provider sends empty strings. */
  function Body(m: Mail): (b: string)
    ensures b != ""
    ensures Truthy(m.bodyText) ==> b == m.bodyText.value
    ensures !Truthy(m.bodyText) && Truthy(m.bodyHtml) ==> b == m.bodyHtml.value
    ensures !Truthy(m.bodyText) && !Truthy(m.bodyHtml) ==> b == NoContent
  {
    if Truthy(m.bodyText) then m.bodyText.value
    else if Truthy(m.bodyHtml) then m.bodyHtml.value
    else NoContent
  }

  /** The view stored for a delivered message. */
  function Received(m: Mail): View {
    MailReceived(m.sender, m.subject, Body(m))
  }

  /** The inner `for msg in messages` loop from position `i`: the index of the
      first message whose id is not in `seen`, which is then added to `seen`;
      when every id was seen, no index and `seen` unchanged. */
  function Scan(msgs: seq<Mail>, seen: set<Option<string>>, i: nat): (r: (set<Option<string>>, Option<nat>))
    requires i <= |msgs|
    ensures r.1.None? ==> r.0 == seen && forall k :: i <= k < |msgs| ==> msgs[k].id in seen
    ensures r.1.Some? ==>
      && i <= r.1.value < |msgs|
      && msgs[r.1.value].id !in seen
      && (forall k :: i <= k < r.1.value ==> msgs[k].id in seen)
      && r.0 == seen + {msgs[r.1.value].id}
    decreases |msgs| - i
  {
    if i == |msgs| then (seen, None)
    else if msgs[i].id !in seen then (seen + {msgs[i].id}, Some(i))
    else Scan(msgs, seen, i + 1)
  }

  /** The views an email session can end with: never an SMS list, and never a message without a body. */
  predicate MailOutcome(v: View) {
    !v.Pending? && !v.SmsReceived? && (v.MailReceived? ==> v.body != "")
  }

  /** The iterations still to run: `left` of them, played by `ticks`. */
  function Iterate(st: Store, id: SessionId, seen: set<Option<string>>, ticks: seq<Tick<seq<Mail>>>, left: nat)
    : (r: Run)
    requires left <= |ticks|
    ensures r.calls <= left
    ensures r.exit == Expired ==> r.calls == left
    ensures Get(r.store.status, id) == Some(ExitStatus(r.exit))
    ensures r.exit == Delivered ==> id in r.store.cache && r.store.cache[id].MailReceived?
    ensures Coherent(st, id) ==> Settled(r.store, id) && MailOutcome(r.store.cache[id])
    ensures SameElsewhere(st, r.store, id)
    decreases left
  {
    if left == 0 then Run(Expire(st, id, TimeoutMessage), 0, Expired)
    else
      var t := ticks[0];
      var top := CancelIf(st, id, t.cancelBefore);
      if CancelSeen(top, id) then Run(top, 0, SawCancel)
      else
        var mid := CancelIf(top, id, t.cancelDuring);
        match t.reply
        case Non200 => Bump(Iterate(mid, id, seen, ticks[1..], left - 1))
        case Raise(e) => Run(Fail(mid, id, e), 1, Crashed)
        case Ok(msgs) =>
          var (seen', hit) := Scan(msgs, seen, 0);
          if hit.Some? then Run(Put(mid, id, Received(msgs[hit.value]), Complete), 1, Delivered)
          else Bump(Iterate(mid, id, seen', ticks[1..], left - 1))
  }

  /** `poll_inbox(id)` against the upstream trace `ticks`: at most 90 upstream
      requests; all 90 when it times out; it always ends with a terminal
      status whose view matches it, and touches no other session. */
  function PollInbox(st: Store, id: SessionId, ticks: seq<Tick<seq<Mail>>>): (r: Run)
    requires |ticks| >= Rounds
    ensures r.calls <= Rounds
    ensures r.exit == Expired ==> r.calls == Rounds
    ensures Settled(r.store, id) && MailOutcome(r.store.cache[id])
    ensures Get(r.store.status, id) == Some(ExitStatus(r.exit))
    ensures SameElsewhere(st, r.store, id)
  {
    Iterate(MarkWaiting(st, id), id, {}, ticks, Rounds)
  }

  // ---------------------------------------------------------------- properties

  /** A reply that ends the loop when no cancel intervenes: an exception, or
      a 200 listing with at least one message. */
  predicate Decisive(u: Upstream<seq<Mail>>) {
    u.Raise? || (u.Ok? && |u.body| > 0)
  }

  /** The write a decisive reply makes, taking the listing's first message. */
  function Settle(st: Store, id: SessionId, u: Upstream<seq<Mail>>): Store
    requires Decisive(u)
  {
    match u
    case Raise(e) => Fail(st, id, e)
    case Ok(msgs) => Put(st, id, Received(msgs[0]), Complete)
  }

  /** The position of the first decisive reply among the first `left`, or `left`. */
  function FirstDecisive(ticks: seq<Tick<seq<Mail>>>, left: nat): (i: nat)
    requires left <= |ticks|
    ensures i <= left
    ensures forall k :: 0 <= k < i ==> !Decisive(ticks[k].reply)
    ensures i < left ==> Decisive(ticks[i].reply)
    decreases left
  {
    if left == 0 then 0
    else if Decisive(ticks[0].reply) then 0
    else 1 + FirstDecisive(ticks[1..], left - 1)
  }

  /** Without cancel requests, the run is decided by the first decisive
      reply: it makes exactly that many requests plus one and writes what
      that reply settles (an error, or the first message of the listing);
      with none, it makes every request and times out. The `seen` set never
      holds an id when it is consulted, so no later listing is ever skipped. */
  lemma {:induction false} QuietRunFollowsFirstDecisive(st: Store, id: SessionId, ticks: seq<Tick<seq<Mail>>>, left: nat)
    requires left <= |ticks|
    requires !CancelSeen(st, id)
    requires forall k :: 0 <= k < left && k <= FirstDecisive(ticks, left) ==> Quiet(ticks[k])
    ensures
      var i := FirstDecisive(ticks, left);
      var r := Iterate(st, id, {}, ticks, left);
      (i == left ==> r == Run(Expire(st, id, TimeoutMessage), left, Expired))
      && (i < left ==>
        && r.calls == i + 1
        && r.store == Settle(st, id, ticks[i].reply)
        && r.exit == (if ticks[i].reply.Raise? then Crashed else Delivered))
    decreases left
  {
    if left > 0 {
      var t := ticks[0];
      assert Quiet(t);
      if !Decisive(t.reply) {
        if t.reply.Ok? {
          assert Scan(t.reply.body, {}, 0) == ({}, None);
        }
        var i := FirstDecisive(ticks, left);
        assert i == 1 + FirstDecisive(ticks[1..], left - 1);
        forall k | 0 <= k < left - 1 && k <= FirstDecisive(ticks[1..], left - 1)
          ensures Quiet(ticks[1..][k])
        {
          assert ticks[1..][k] == ticks[k + 1];
        }
        QuietRunFollowsFirstDecisive(st, id, ticks[1..], left - 1);
      }
    }
  }

  /** A cancel request that lands before iteration `k` starts allows at most
      `k` upstream requests; one that lands during iteration `k` allows at
      most `k + 1`. */
  lemma {:induction false} CancelBoundsRequests(st: Store, id: SessionId, seen: set<Option<string>>, ticks: seq<Tick<seq<Mail>>>, left: nat)
    requires left <= |ticks|
    requires id in st.status
    ensures forall k :: 0 <= k < left && ticks[k].cancelBefore ==> Iterate(st, id, seen, ticks, left).calls <= k
    ensures forall k :: 0 <= k < left && ticks[k].cancelDuring ==> Iterate(st, id, seen, ticks, left).calls <= k + 1
    decreases left
  {
    if left > 0 {
      var t := ticks[0];
      var top := CancelIf(st, id, t.cancelBefore);
      if !CancelSeen(top, id) {
        var mid := CancelIf(top, id, t.cancelDuring);
        var seen' := if t.reply.Ok? then Scan(t.reply.body, seen, 0).0 else seen;
        CancelBoundsRequests(mid, id, seen', ticks[1..], left - 1);
        forall k | 1 <= k < left
          ensures ticks[k] == ticks[1..][k - 1]
        {
        }
      }
    }
  }

  /** A cancelled flag at the top of an iteration ends the loop there: no
      upstream request and no write to either map. */
  lemma CancelledAtTopStops(st: Store, id: SessionId, seen: set<Option<string>>, ticks: seq<Tick<seq<Mail>>>, left: nat)
    requires 0 < left <= |ticks|
    requires CancelSeen(st, id)
    requires !ticks[0].cancelBefore
    ensures Iterate(st, id, seen, ticks, left) == Run(st, 0, SawCancel)
  {
  }

  /** A cancel that lands while the request is in flight is accepted by the
      cancel route, yet the message that request returns overwrites it: the
      session ends `complete`, not `cancelled`. */
  lemma MidRequestCancelIsOverwritten(st: Store, id: SessionId, msgs: seq<Mail>, ticks: seq<Tick<seq<Mail>>>, left: nat)
    requires 0 < left <= |ticks|
    requires id in st.status && !CancelSeen(st, id)
    requires |msgs| > 0 && ticks[0] == Tick(false, Ok(msgs), true)
    ensures Routes.CancelOperation(st, id).1.Ok?
    ensures
      var r := Iterate(st, id, {}, ticks, left);
      r.exit == Delivered && r.calls == 1 && Get(r.store.status, id) == Some(Complete)
  {
  }

  /** A cancel that lands during the last sleep is overwritten by the timeout write. */
  lemma FinalSleepCancelIsOverwritten(st: Store, id: SessionId, seen: set<Option<string>>, ticks: seq<Tick<seq<Mail>>>)
    requires |ticks| >= 1
    requires id in st.status && !CancelSeen(st, id)
    requires ticks[0] == Tick(false, Non200, true)
    ensures Routes.CancelOperation(st, id).1.Ok?
    ensures
      var r := Iterate(st, id, seen, ticks, 1);
      r.exit == Expired && Get(r.store.status, id) == Some(TimedOut)
  {
  }

  /** Three empty listings, then one message from a@b.com with subject "Hi"
      and text "Hello": the fourth request ends the poll and the mailbox
      route then returns that message. */
  lemma ThreeEmptyPollsThenMessage(st: Store, id: SessionId, ticks: seq<Tick<seq<Mail>>>)
    requires |ticks| >= Rounds
    requires forall k :: 0 <= k < 3 ==> ticks[k] == Tick(false, Ok([]), false)
    requires ticks[3] == Tick(false, Ok([Mail(Some("x1"), Some("a@b.com"), Some("Hi"), Some("Hello"), None)]), false)
    ensures
      var r := PollInbox(st, id, ticks);
      && r.calls == 4
      && r.exit == Delivered
      && Routes.GetMessages(r.store, id) == Routes.Ok(MailReceived(Some("a@b.com"), Some("Hi"), "Hello"))
  {
  }
}

=== FILE: polling.dfy ===
/** Vocabulary shared by the two background pollers (app.py:49-98, 122-163).
    A poller is a bounded loop; each iteration tests the cancellation flag,
    makes one upstream request and reacts to its reply. The network and the
    ten-second sleep are replaced by a trace with one `Tick` per iteration,
    and the only other writer, `cancel_operation`, is placed on that trace. */
module Polling {
  import opened Wrappers
  import opened Store
  import Routes

  /** What one upstream request came back with: a non-200 status, a 200
      with its decoded JSON body, or an exception (network failure,
      undecodable body) carrying `str(e)`. */
  datatype Upstream<R> = Non200 | Ok(body: R) | Raise(error: string)

  /** One iteration as the environment plays it. `cancelBefore`: a cancel
      request for this session lands before the iteration tests the flag.
      `cancelDuring`: one lands after the test, while the upstream request or
      the following sleep is in progress. */
  datatype Tick<R> = Tick(cancelBefore: bool, reply: Upstream<R>, cancelDuring: bool)

  /** Neither cancel slot of the iteration is used. */
  predicate Quiet<R>(t: Tick<R>) {
    !t.cancelBefore && !t.cancelDuring
  }

  /** How a poller's loop ended. */
  datatype Exit = SawCancel | Delivered | Expired | Crashed

  /** The store a poller leaves, the number of upstream requests it made, and how it ended. */
  datatype Run = Run(store: Store, calls: nat, exit: Exit)

  /** The status a poller's last write gives the session, for each way of ending. */
  function ExitStatus(e: Exit): OpStatus {
    match e
    case SawCancel => Cancelled
    case Delivered => Complete
    case Expired => TimedOut
    case Crashed => Errored
  }

  /** The store once a cancel request (if `flag`) has been served: it only
      touches `id`, keeps its flag and view in step, and raises the flag
      whenever `id` already has a status. */
  function CancelIf(st: Store, id: SessionId, flag: bool): (r: Store)
    ensures !flag ==> r == st
    ensures Coherent(st, id) ==> Coherent(r, id)
    ensures SameElsewhere(st, r, id)
    ensures id in st.status ==> id in r.status
    ensures flag && id in st.status ==> CancelSeen(r, id)
  {
    if flag then Routes.CancelOperation(st, id).0 else st
  }

  /** Counts the upstream request made by the iteration in front of `r`. */
  function Bump(r: Run): Run {
    r.(calls := r.calls + 1)
  }

  /** The `except` branch: the error view with `str(e)`, and status `error`. */
  function Fail(st: Store, id: SessionId, error: string): Store {
    Put(st, id, Failed(error), Errored)
  }

  /** The write after the last iteration: the timeout view and status `timeout`. */
  function Expire(st: Store, id: SessionId, message: string): Store {
    Put(st, id, TimedOutView(message), TimedOut)
  }

  /** The poller's first action: `operation_status[id] = "waiting"`. */
  function MarkWaiting(st: Store, id: SessionId): (r: Store)
    ensures Get(r.status, id) == Some(Waiting) && Coherent(r, id)
    ensures r.cache == st.cache && SameElsewhere(st, r, id)
  {
    st.(status := st.status[id := Waiting])
  }
}

=== FILE: routes.dfy ===
/** The server's request handlers (app.py:36-47, 101-120, 166-227) over the
    session store. Upstream HTTP replies and the clock are parameters; the
    start of the background poller is modelled separately (InboxPoller,
    SmsPoller), after the handler's own writes. */
module Routes {
  import opened Wrappers
  import opened Store
  import Decimal

  /** An HTTP reply: 200 with a body, or an error code with the `"error"` text. */
  datatype Response<T> = Ok(body: T) | Err(code: nat, error: string)

  const EmailPendingMessage := "Waiting for emails..."
  const SmsPendingMessage := "Waiting for SMS..."
  const DefaultCountry := "7"

  // ---------------------------------------------------------------- email

  /** The mail provider's reply to "new mailbox": non-200, or 200 with a JSON
      object whose `"email"` field may be missing. */
  datatype MailboxReply = MailboxNon200 | MailboxOk(email: Option<string>)

  /** `generate_temp_email`: the new address, or `None` on a non-200 reply. */
  function ProvisionEmail(reply: MailboxReply): (r: Option<string>)
    ensures reply.MailboxNon200? ==> r == None
    ensures reply.MailboxOk? ==> r == reply.email
  {
    match reply
    case MailboxNon200 => None
    case MailboxOk(e) => e
  }

  /** `GET /generate/email`: on a usable (truthy) address, write the pending
      view for it and answer with the address; otherwise answer 500 and
      write nothing. `operation_status` is never written here. */
  function GenerateEmail(st: Store, reply: MailboxReply): (r: (Store, Response<string>))
    ensures r.1.Ok? <==> Truthy(ProvisionEmail(reply))
    ensures r.1.Ok? ==>
      && r.1.body == ProvisionEmail(reply).value
      && r.0.cache == st.cache[r.1.body := Pending(EmailPendingMessage)]
      && r.0.status == st.status
    ensures !r.1.Ok? ==> r.0 == st && r.1.code == 500
  {
    var created := ProvisionEmail(reply);
    if !Truthy(created) then (st, Err(500, "Failed to create temporary email"))
    else
      var email := created.value;
      (st.(cache := st.cache[email := Pending(EmailPendingMessage)]), Ok(email))
  }

  /** Shared body of the two read routes: the stored view, or 404. */
  function Lookup(st: Store, id: SessionId, notFound: string): (r: Response<View>)
    ensures r.Ok? <==> id in st.cache
    ensures r.Ok? ==> r.body == st.cache[id]
    ensures !r.Ok? ==> r == Err(404, notFound)
  {
    if id in st.cache then Ok(st.cache[id]) else Err(404, notFound)
  }

  /** `GET /get_messages/<id>`: a pure read of the cache. */
  function GetMessages(st: Store, id: SessionId): (r: Response<View>)
    ensures r.Ok? <==> id in st.cache
    ensures r.Ok? ==> r.body == st.cache[id]
    ensures !r.Ok? ==> r == Err(404, "Email not found")
  {
    Lookup(st, id, "Email not found")
  }

  // ---------------------------------------------------------------- numbers

  /** The JSON body of the number provider's "country numbers" reply. */
  datatype NumbersBody = NumberList(numbers: seq<string>) | NotAList

  datatype NumbersReply = NumbersNon200 | NumbersOk(body: NumbersBody)

  /** `generate_virtual_phone_number`: the first number of a non-empty list
      in a 200 reply, and `None` for everything else. */
  function PickNumber(reply: NumbersReply): (r: Option<string>)
    ensures r.Some? <==> reply.NumbersOk? && reply.body.NumberList? && |reply.body.numbers| > 0
    ensures r.Some? ==> r.value == reply.body.numbers[0]
  {
    match reply
    case NumbersNon200 => None
    case NumbersOk(NotAList) => None
    case NumbersOk(NumberList(ns)) => if |ns| > 0 then Some(ns[0]) else None
  }

  /** `f"sms_{country_id}_{number}_{int(time.time())}"`, with the clock reading as a parameter. */
  function SmsSessionId(country: string, number: string, now: nat): (id: SessionId)
    ensures |id| > 4 && id[..4] == "sms_"
    ensures
      var secs := Decimal.Show(now);
      && |secs| < |id|
      && id[|id| - |secs|..] == secs
      && id[|id| - |secs| - 1] == '_'
  {
    "sms_" + country + "_" + number + "_" + Decimal.Show(now)
  }

  /** For one country and number, requests made in different seconds get
      different session ids; requests made in the same second share one. */
  lemma SmsSessionIdSeparatesSeconds(country: string, number: string, t1: nat, t2: nat)
    ensures SmsSessionId(country, number, t1) == SmsSessionId(country, number, t2) <==> t1 == t2
  {
    var p := "sms_" + country + "_" + number + "_";
    if SmsSessionId(country, number, t1) == SmsSessionId(country, number, t2) {
      assert p + Decimal.Show(t1) == p + Decimal.Show(t2);
      assert Decimal.Show(t1) == (p + Decimal.Show(t1))[|p|..];
      assert Decimal.Show(t2) == (p + Decimal.Show(t2))[|p|..];
      Decimal.ShowInjective(t1, t2);
    }
  }

  /** The number route hands out the first listed number exactly when the
      provider's 200 reply lists at least one number and the first is not
      empty; any other reply gives a 500 and leaves the store alone. */
  lemma GenerateNumberTakesFirstListed(st: Store, countryArg: Option<string>, ns: seq<string>, now: nat)
    ensures
      var r := GenerateNumber(st, countryArg, NumbersOk(NumberList(ns)), now);
      && (r.1.Ok? <==> |ns| > 0 && ns[0] != "")
      && (r.1.Ok? ==> r.1.body.phone == ns[0])
    ensures GenerateNumber(st, countryArg, NumbersOk(NotAList), now) == (st, Err(500, "Could not generate virtual phone number"))
    ensures GenerateNumber(st, countryArg, NumbersNon200, now) == (st, Err(500, "Could not generate virtual phone number"))
  {
  }

  /** The 200 body of `GET /generate/number`. */
  datatype NumberGrant = NumberGrant(phone: string, country: string, sessionId: SessionId)

  /** `GET /generate/number?country_id=…`: the country defaults to "7"; a
      truthy picked number gets a fresh session id and a pending view;
      otherwise 500 and nothing is written. `operation_status` is never written here. */
  function GenerateNumber(st: Store, countryArg: Option<string>, reply: NumbersReply, now: nat)
    : (r: (Store, Response<NumberGrant>))
    ensures r.1.Ok? <==> Truthy(PickNumber(reply))
    ensures r.1.Ok? ==>
      && r.1.body.phone == PickNumber(reply).value
      && r.1.body.country == countryArg.GetOr(DefaultCountry)
      && r.1.body.sessionId == SmsSessionId(r.1.body.country, r.1.body.phone, now)
      && r.0.cache == st.cache[r.1.body.sessionId := Pending(SmsPendingMessage)]
      && r.0.status == st.status
    ensures !r.1.Ok? ==> r.0 == st && r.1.code == 500
  {
    var country := countryArg.GetOr(DefaultCountry);
    var number := PickNumber(reply);
    if !Truthy(number) then (st, Err(500, "Could not generate virtual phone number"))
    else
      var sid := SmsSessionId(country, number.value, now);
      (st.(cache := st.cache[sid := Pending(SmsPendingMessage)]),
       Ok(NumberGrant(number.value, country, sid)))
  }

  /** `GET /check_sms/<id>`: a pure read of the cache. */
  function CheckSms(st: Store, id: SessionId): (r: Response<View>)
    ensures r.Ok? <==> id in st.cache
    ensures r.Ok? ==> r.body == st.cache[id]
    ensures !r.Ok? ==> r == Err(404, "Session not found")
  {
    Lookup(st, id, "Session not found")
  }

  // ---------------------------------------------------------------- cancel

  /** `POST /cancel/<id>`: succeeds exactly when `id` has a status; it then
      marks it cancelled and stores the cancelled view, whatever the entry
      held before (a terminal entry included). Otherwise 404 and no change. */
  function CancelOperation(st: Store, id: SessionId): (r: (Store, Response<string>))
    ensures r.1.Ok? <==> id in st.status
    ensures r.1.Ok? ==>
      && r.1.body == "cancelled"
      && CancelSeen(r.0, id)
      && Get(r.0.cache, id) == Some(CancelledView)
      && SameElsewhere(st, r.0, id)
    ensures !r.1.Ok? ==> r.0 == st && r.1 == Err(404, "Operation not found")
  {
    if id in st.status then (Put(st, id, CancelledView, Cancelled), Ok("cancelled"))
    else (st, Err(404, "Operation not found"))
  }

  /** Cancelling twice has the effect of cancelling once. */
  lemma CancelIdempotent(st: Store, id: SessionId)
    ensures CancelOperation(CancelOperation(st, id).0, id) == CancelOperation(st, id)
  {
    if id in st.status {
      var once := CancelOperation(st, id).0;
      assert once.cache[id := CancelledView] == once.cache;
      assert once.status[id := Cancelled] == once.status;
    }
  }

  /** The cancel route overwrites an entry that a poller already finished:
      a received, timed-out or failed session reads `cancelled` afterwards. */
  lemma CancelOverwritesTerminal(st: Store, id: SessionId)
    requires Settled(st, id)
    ensures CancelOperation(st, id).1.Ok?
    ensures Get(CancelOperation(st, id).0.cache, id) == Some(CancelledView)
  {
  }

  /** Creating an email session writes no status, so a cancel for a fresh
      address that arrives before its poller's first write is refused with 404. */
  lemma CancelBeforePollerStartIsNotFound(st: Store, reply: MailboxReply)
    requires GenerateEmail(st, reply).1.Ok?
    requires GenerateEmail(st, reply).1.body !in st.status
    ensures
      var (st', resp) := GenerateEmail(st, reply);
      CancelOperation(st', resp.body) == (st', Err(404, "Operation not found"))
  {
  }

  /** After a successful cancel both read routes report the cancelled view. */
  lemma LookupAfterCancel(st: Store, id: SessionId)
    requires id in st.status
    ensures GetMessages(CancelOperation(st, id).0, id) == Ok(CancelledView)
    ensures CheckSms(CancelOperation(st, id).0, id) == Ok(CancelledView)
  {
  }
}

=== FILE: sms_poller.dfy ===
/** `poll_sms_background` (app.py:122-163): the SMS session's background
    poller. It marks the session `waiting`, then for at most 30 iterations
    tests the cancellation flag, lists the number's SMS once and stops at the
    first 200 reply whose JSON is a non-empty list, at an exception, or after
    the last iteration. */
module SmsPoller {
  import opened Wrappers
  import opened Store
  import opened Polling
  import Routes

  const Rounds := 30
  const TimeoutMessage := "No SMS received after 5 minutes"

  /** The decoded JSON of a 200 "view messages" reply: a list of SMS elements,
      or some other JSON value (object, string, number, null). */
  datatype SmsBody = SmsList(items: seq<Sms>) | NotAList

  /** `messages and isinstance(messages, list) and len(messages) > 0`:
      the delivered records, when the body qualifies. */
  function Delivery(b: SmsBody): (r: Option<seq<Sms>>)
    ensures r.Some? <==> b.SmsList? && |b.items| > 0
    ensures r.Some? ==> r.value == b.items
  {
    match b
    case SmsList(items) => if |items| > 0 then Some(items) else None
    case NotAList => None
  }

  /** The views an SMS session can end with: never an email, and never an empty SMS list. */
  predicate SmsOutcome(v: View) {
    !v.Pending? && !v.MailReceived? && (v.SmsReceived? ==> |v.messages| > 0)
  }

  /** The iterations still to run: `left` of them, played by `ticks`. */
  function Iterate(st: Store, id: SessionId, ticks: seq<Tick<SmsBody>>, left: nat): (r: Run)
    requires left <= |ticks|
    ensures r.calls <= left
    ensures r.exit == Expired ==> r.calls == left
    ensures Get(r.store.status, id) == Some(ExitStatus(r.exit))
    ensures r.exit == Delivered ==> id in r.store.cache && r.store.cache[id].SmsReceived?
    ensures Coherent(st, id) ==> Settled(r.store, id) && SmsOutcome(r.store.cache[id])
    ensures SameElsewhere(st, r.store, id)
    decreases left
  {
    if left == 0 then Run(Expire(st, id, TimeoutMessage), 0, Expired)
    else
      var t := ticks[0];
      var top := CancelIf(st, id, t.cancelBefore);
      if CancelSeen(top, id) then Run(top, 0, SawCancel)
      else
        var mid := CancelIf(top, id, t.cancelDuring);
        match t.reply
        case Non200 => Bump(Iterate(mid, id, ticks[1..], left - 1))
        case Raise(e) => Run(Fail(mid, id, e), 1, Crashed)
        case Ok(body) =>
          match Delivery(body)
          case Some(items) => Run(Put(mid, id, SmsReceived(items), Complete), 1, Delivered)
          case None => Bump(Iterate(mid, id, ticks[1..], left - 1))
  }

  /** `poll_sms_background(country, number, id)` against the upstream trace
      `ticks`: at most 30 upstream requests; all 30 when it times out; it
      always ends with a terminal status whose view matches it, and touches
      no other session. */
  function PollSms(st: Store, id: SessionId, ticks: seq<Tick<SmsBody>>): (r: Run)
    requires |ticks| >= Rounds
    ensures r.calls <= Rounds
    ensures r.exit == Expired ==> r.calls == Rounds
    ensures Settled(r.store, id) && SmsOutcome(r.store.cache[id])
    ensures Get(r.store.status, id) == Some(ExitStatus(r.exit))
    ensures SameElsewhere(st, r.store, id)
  {
    Iterate(MarkWaiting(st, id), id, ticks, Rounds)
  }

  // ---------------------------------------------------------------- properties

  /** A reply that ends the loop when no cancel intervenes: an exception, or
      a 200 whose body is a non-empty list. */
  predicate Decisive(u: Upstream<SmsBody>) {
    u.Raise? || (u.Ok? && Delivery(u.body).Some?)
  }

  /** The write a decisive reply makes: an error, or the whole list of records. */
  function Settle(st: Store, id: SessionId, u: Upstream<SmsBody>): Store
    requires Decisive(u)
  {
    match u
    case Raise(e) => Fail(st, id, e)
    case Ok(body) => Put(st, id, SmsReceived(body.items), Complete)
  }

  /** The position of the first decisive reply among the first `left`, or `left`. */
  function FirstDecisive(ticks: seq<Tick<SmsBody>>, left: nat): (i: nat)
    requires left <= |ticks|
    ensures i <= left
    ensures forall k :: 0 <= k < i ==> !Decisive(ticks[k].reply)
    ensures i < left ==> Decisive(ticks[i].reply)
    decreases left
  {
    if left == 0 then 0
    else if Decisive(ticks[0].reply) then 0
    else 1 + FirstDecisive(ticks[1..], left - 1)
  }

  /** Without cancel requests, the run is decided by the first decisive
      reply: exactly that many requests plus one, and the write that reply
      settles; non-200 replies, empty lists and non-list bodies only lead to
      the next iteration, and with no decisive reply the run times out. */
  lemma {:induction false} QuietRunFollowsFirstDecisive(st: Store, id: SessionId, ticks: seq<Tick<SmsBody>>, left: nat)
    requires left <= |ticks|
    requires !CancelSeen(st, id)
    requires forall k :: 0 <= k < left && k <= FirstDecisive(ticks, left) ==> Quiet(ticks[k])
    ensures
      var i := FirstDecisive(ticks, left);
      var r := Iterate(st, id, ticks, left);
      (i == left ==> r == Run(Expire(st, id, TimeoutMessage), left, Expired))
      && (i < left ==>
        && r.calls == i + 1
        && r.store == Settle(st, id, ticks[i].reply)
        && r.exit == (if ticks[i].reply.Raise? then Crashed else Delivered))
    decreases left
  {
    if left > 0 {
      var t := ticks[0];
      assert Quiet(t);
      if !Decisive(t.reply) {
        var i := FirstDecisive(ticks, left);
        assert i == 1 + FirstDecisive(ticks[1..], left - 1);
        forall k | 0 <= k < left - 1 && k <= FirstDecisive(ticks[1..], left - 1)
          ensures Quiet(ticks[1..][k])
        {
          assert ticks[1..][k] == ticks[k + 1];
        }
        QuietRunFollowsFirstDecisive(st, id, ticks[1..], left - 1);
      }
    }
  }

  /** A cancel request that lands before iteration `k` starts allows at most
      `k` upstream requests; one that lands during iteration `k` allows at
      most `k + 1`. */
  lemma {:induction false} CancelBoundsRequests(st: Store, id: SessionId, ticks: seq<Tick<SmsBody>>, left: nat)
    requires left <= |ticks|
    requires id in st.status
    ensures forall k :: 0 <= k < left && ticks[k].cancelBefore ==> Iterate(st, id, ticks, left).calls <= k
    ensures forall k :: 0 <= k < left && ticks[k].cancelDuring ==> Iterate(st, id, ticks, left).calls <= k + 1
    decreases left
  {
    if left > 0 {
      var t := ticks[0];
      var top := CancelIf(st, id, t.cancelBefore);
      if !CancelSeen(top, id) {
        var mid := CancelIf(top, id, t.cancelDuring);
        CancelBoundsRequests(mid, id, ticks[1..], left - 1);
        forall k | 1 <= k < left
          ensures ticks[k] == ticks[1..][k - 1]
        {
        }
      }
    }
  }

  /** A cancelled flag at the top of an iteration ends the loop there: no
      upstream request and no write to either map. */
  lemma CancelledAtTopStops(st: Store, id: SessionId, ticks: seq<Tick<SmsBody>>, left: nat)
    requires 0 < left <= |ticks|
    requires CancelSeen(st, id)
    requires !ticks[0].cancelBefore
    ensures Iterate(st, id, ticks, left) == Run(st, 0, SawCancel)
  {
  }

  /** A cancel accepted while the request is in flight is overwritten by the
      exception that request raises: the session ends `error`. */
  lemma MidRequestCancelIsOverwritten(st: Store, id: SessionId, e: string, ticks: seq<Tick<SmsBody>>, left: nat)
    requires 0 < left <= |ticks|
    requires id in st.status && !CancelSeen(st, id)
    requires ticks[0] == Tick(false, Raise(e), true)
    ensures Routes.CancelOperation(st, id).1.Ok?
    ensures
      var r := Iterate(st, id, ticks, left);
      r.exit == Crashed && Get(r.store.status, id) == Some(Errored)
  {
  }

  /** A number whose SMS listing stays empty for all 30 iterations, with no
      cancel, ends `timeout` after exactly 30 requests, and the SMS route then
      reports the timeout view. */
  lemma EmptyListingsTimeOut(st: Store, id: SessionId, ticks: seq<Tick<SmsBody>>)
    requires |ticks| >= Rounds
    requires forall k :: 0 <= k < Rounds ==> ticks[k] == Tick(false, Ok(SmsList([])), false)
    ensures
      var r := PollSms(st, id, ticks);
      && r.calls == Rounds
      && r.exit == Expired
      && Routes.CheckSms(r.store, id) == Routes.Ok(TimedOutView(TimeoutMessage))
  {
    var w := MarkWaiting(st, id);
    assert FirstDecisive(ticks, Rounds) == Rounds;
    QuietRunFollowsFirstDecisive(w, id, ticks, Rounds);
  }
}

=== FILE: store.dfy ===
/** The server's in-memory session state (app.py:32-33): `message_cache`, the
    view a status query returns, and `operation_status`, the flag the pollers
    and `cancel_operation` share. Both are keyed by session id: the email
    address for email sessions, a synthetic `sms_…` id for SMS sessions. */
module Store {
  import opened Wrappers

  type SessionId = string

  /** The values `operation_status` takes. */
  datatype OpStatus = Waiting | Complete | TimedOut | Errored | Cancelled

  /** One message of the mail provider's inbox listing; every field is read
      with `msg.get(...)` and may therefore be absent (`None`). */
  datatype Mail = Mail(
    id: Option<string>,
    sender: Option<string>,
    subject: Option<string>,
    bodyText: Option<string>,
    bodyHtml: Option<string>)

  /** One element of the number provider's SMS listing, passed through
      verbatim: a JSON object, of which the bot reads the `from`, `message`
      and `time` keys, or any other JSON value (a string, number, list or
      `null`), which has no `.get`. */
  datatype Sms = Sms(sender: Option<string>, text: Option<string>, time: Option<string>) | NotAnObject

  const CancelledMessage := "Operation was cancelled by user"

  /** The entries of `message_cache`, one constructor per JSON shape the server stores. */
  datatype View =
    | Pending(message: string)
    | MailReceived(sender: Option<string>, subject: Option<string>, body: string)
    | SmsReceived(messages: seq<Sms>)
    | TimedOutView(message: string)
    | Failed(message: string)
    | CancelledView
  {
    /** The view's `"status"` field. */
    function Status(): string {
      match this
      case Pending(_) => "pending"
      case MailReceived(_, _, _) => "received"
      case SmsReceived(_) => "received"
      case TimedOutView(_) => "timeout"
      case Failed(_) => "error"
      case CancelledView => "cancelled"
    }

    /** The view's `"message"` field, when it has one. */
    function Message(): Option<string> {
      match this
      case Pending(m) => Some(m)
      case TimedOutView(m) => Some(m)
      case Failed(m) => Some(m)
      case CancelledView => Some(CancelledMessage)
      case _ => None
    }
  }

  datatype Store = Store(cache: map<SessionId, View>, status: map<SessionId, OpStatus>)

  /** A terminal write: the cache entry and the status of `id` together. */
  function Put(st: Store, id: SessionId, v: View, s: OpStatus): (r: Store)
    ensures Get(r.cache, id) == Some(v) && Get(r.status, id) == Some(s)
    ensures SameElsewhere(st, r, id)
  {
    Store(st.cache[id := v], st.status[id := s])
  }

  /** No key other than `id` differs between `a` and `b`, in either map. */
  ghost predicate SameElsewhere(a: Store, b: Store, id: SessionId) {
    forall k :: k != id ==> Get(a.cache, k) == Get(b.cache, k) && Get(a.status, k) == Get(b.status, k)
  }

  /** Both maps hold `id`, its status is terminal and its view is the one that status writes. */
  predicate Settled(st: Store, id: SessionId) {
    && id in st.status
    && id in st.cache
    && match st.status[id]
       case Waiting => false
       case Complete => st.cache[id].MailReceived? || st.cache[id].SmsReceived?
       case TimedOut => st.cache[id].TimedOutView?
       case Errored => st.cache[id].Failed?
       case Cancelled => st.cache[id] == CancelledView
  }

  /** The status of `id` reads `cancelled`: the flag both pollers test at the top of an iteration. */
  predicate CancelSeen(st: Store, id: SessionId) {
    Get(st.status, id) == Some(Cancelled)
  }

  /** Whenever the status of `id` reads `cancelled`, its view is the cancelled view. */
  predicate Coherent(st: Store, id: SessionId) {
    CancelSeen(st, id) ==> Get(st.cache, id) == Some(CancelledView)
  }
}

=== FILE: wrappers.dfy ===
/** Optional values and the two Python idioms the system leans on:
    `dict.get` (a missing key reads as `None`) and string truthiness. */
module Wrappers {

  /** A Python value that may be `None`: a missing dictionary key, a JSON
      `null`, or a field a reply did not carry. */
  datatype Option<+T> = None | Some(value: T) {

    /** Python's `d.get(k, fallback)`: the carried value, else `fallback`. */
    function GetOr(fallback: T): T {
      match this
      case Some(v) => v
      case None => fallback
    }
  }

  /** `m.get(k)`: the value under `k`, or `None` when `k` is not a key. */
  function Get<K, V>(m: map<K, V>, k: K): (r: Option<V>)
    ensures r.Some? <==> k in m
    ensures r.Some? ==> r.value == m[k]
  {
    if k in m then Some(m[k]) else None
  }

  /** Python truthiness of a value that is a string or `None`:
      both `None` and the empty string are falsy. */
  predicate Truthy(s: Option<string>) {
    s.Some? && s.value != ""
  }
}
